=== FILE: README.md ===
# inven_crawler — a Dafny model of the crawler's bookkeeping

`InvenCrawler` (inven_crawler_v2.py) crawls one board of the Inven community
site. Starting from a resolved `max_idx`, it visits article ids down to
`min_idx`, `step` ids at a time. For each id it fetches the article page and its
comments into an in-memory buffer (`self.data`). Every 50 buffered records it
flushes the buffer into a JSON store file, and it flushes once more at the end.
A flush merges the buffer onto the stored records and drops later duplicates of
an `article_id`, so the record already stored wins.

The model covers:

- **Records and the store** (`Records`, `Store`):
  - an article record tagged with its board and article id;
  - the store as `Option<seq<Record>>`, where `None` means the file does not exist yet;
  - `Flush`, which is what one `save_data` does to the store;
  - `DropDuplicates`, which is `drop_duplicates("article_id")` keeping the first occurrence.
- **Python's `range`** (`PyRange`): the countdown `range(max_idx, min_idx, -step)`.
- **Text** (`Text`, `HitText`):
  - `str(int)`, `"|".join`, `str.split`;
  - the `titles` field of the second comment request;
  - the look-behind patterns `(?<=조회: )\d+` and `(?<=추천: )\d+` as `search` applies them.
- **One article** (`Article`):
  - `parsing_from_article`, `crawling_article_comment` and `crawling_article`;
  - the board is an oracle (`Site`) that either answers each request or fails.
- **Range resolution** (`RangeResolution`): how the overloaded `max_idx` and `min_idx` arguments become two integers. This includes Python's `bool`-is-`int` and truthiness quirks, resume from the store, and the listing look-ups. A failure while reading the deep listing page falls back to 0, while non-numeric cell text fails at `int(...)`.
- **The loop** (`Schedule`): a state machine over `(buffer, store)` with auto-save and the sampling `break`. `Run` is the state when the loop ends, `Visits` is how many ids it visited, and `Harvest` is the records fetched for the visited ids.
- **The object** (`Crawler.InvenCrawler`): a class whose fields are the buffer `data` and the `store`.
  - `SaveData` flushes.
  - `Visit` is one iteration's bookkeeping.
  - `Iteration` is one pass of the loop body, `CrawlLoop` the loop, and `CrawlIds` the loop with its final save.
  - `Crawling` is the whole `crawling` call.
  - Each method is proved against the functions above.

The main results:

- **Checkpointed saving equals one save.**
  - `RunThenSave`: the loop with its auto-saves, followed by the final save, leaves the store as one save of every fetched record would.
  - `CrawlFromEmptyBuffer` and `CrawlIds`: starting from an empty buffer, the store after `crawling` equals `Flush(old store, Harvest(visited ids))`.
- **The merge keeps the first record per id.**
  - `DropDuplicatesKeepsFirst`, `MergeOntoStore`.
  - A re-crawl of ids already stored leaves the store unchanged (`RecrawlKeepsStore`), and so does a second save of the same buffer (`FlushIdempotent`).
- **Sampling and auto-save interact.** With auto-save on, the buffer never reaches 50 records (`RunBufferBound`). The sampling `break` needs more than 100, so it can never fire, and the loop visits every id (`RunVisitsAll`). The sampling cap therefore only acts when auto-save is off.
- **Resume re-fetches one stored id.** A resumed crawl starts at the smallest stored id. That id is visited again and every later id is new (`ResumeRevisitsSmallestId`).
- **The `titles` field round-trips.** Split at `|`, it gives exactly the canonical texts of `100, 200, …, 100·(lastblock / 100)`, which read back as those numbers (`TitlesRoundTrip`). It is empty exactly when `lastblock < 100` (`TitlesEmpty`).

Behaviour of the code that the model keeps as written:

- **Which duplicate is kept.** `drop_duplicates("article_id")` keeps the first occurrence (inven_crawler_v2.py:115). The record already stored therefore wins over a newly crawled one with the same id.
- **`min_idx` above `max_idx`.** Nothing in inven_crawler_v2.py:137-171 orders the two bounds. The `min_idx` docstring (inven_crawler_v2.py:133) promises that a positive value is kept as the end index, and it is kept even when it lies above `max_idx`. The loop then visits nothing (`PyRange.Countdown`).
- **What the sampling limit counts.** The `sampling` docstring (inven_crawler_v2.py:131) asks whether only 100 articles are crawled. The code tests `len(self.data) > 100` (line 186), which counts the unsaved buffer alone. With `auto_save` on (the default, line 121), the buffer never holds 50 records, so the test never fires (`Schedule.RunVisitsAll`).
- **The first save.** The first save into an absent file writes the buffer as it is, without dropping duplicates (lines 112-113).

## Model

| member | source | states |
|---|---|---|
| Records.MinId | inven_crawler_v2.py:141 | the smallest article id of a non-empty store: it is one of the stored ids and no stored record has a smaller one |
| Records.FirstIndex | inven_crawler_v2.py:115 | the position of the first record carrying an id: that record has the id and no earlier one does |
| Store.Flush | inven_crawler_v2.py:109-117 | what `save_data` does to the store: an empty buffer leaves it unchanged; otherwise the file exists afterwards with at most the stored and buffered records, and no id twice once a file existed (the ids themselves: `MergeOntoStore`, `FlushCreatesStore`) |
| Store.DropDuplicates | inven_crawler_v2.py:115 | the de-duplicated records have pairwise distinct ids, the same set of ids as the input, and are no longer than it |
| Store.DropDuplicatesKeepsFirst | inven_crawler_v2.py:115 | every kept record is the first record of its id in the input, and kept records appear in the order of those first occurrences |
| Store.DropDuplicatesOfUnique | inven_crawler_v2.py:115 | records whose ids are already distinct pass through unchanged |
| Store.DropDuplicatesNested | inven_crawler_v2.py:115 | de-duplicating a de-duplicated prefix and then the rest equals de-duplicating everything at once |
| Store.DropDuplicatesAbsorbs | inven_crawler_v2.py:115 | appending records whose ids all occur already changes nothing |
| Store.DropDuplicatesPrefix | inven_crawler_v2.py:115 | appending records only adds at the end: the earlier result is a prefix of the new one |
| Store.MergeOntoStore | inven_crawler_v2.py:114-115 | merging a non-empty buffer onto a store gives distinct ids, the union of both id sets, and for each id the stored record when there is one; a duplicate-free store survives as an unchanged prefix |
| Store.FlushCreatesStore | inven_crawler_v2.py:112-113 | the first save into an absent file stores the buffer verbatim |
| Store.FlushTwice | inven_crawler_v2.py:109-117 | saving one buffer and then another equals saving their concatenation once (when a store exists or the ids are distinct) |
| Store.FlushIdempotent | inven_crawler_v2.py:109-117 | saving the same buffer a second time changes nothing |
| Store.RecrawlKeepsStore | inven_crawler_v2.py:115 | saving records whose ids are all stored already leaves a duplicate-free store unchanged |
| PyRange.Range | inven_crawler_v2.py:174 | every value of `range(start, stop, step)` lies from `start` up to but excluding `stop` in the step's direction, and the range is empty exactly when `start` is not before `stop` (positions and order: `RangeValues`, `RangeStrictlyMonotone`) |
| PyRange.RangeValues | inven_crawler_v2.py:174 | the k-th value of `range(start, stop, step)` is `start + k*step`, all values lie before `stop`, and one more step would reach or pass it |
| PyRange.RangeStrictlyMonotone | inven_crawler_v2.py:174 | the values move strictly in the direction of the step |
| PyRange.RangeDistinct | inven_crawler_v2.py:174 | no id is visited twice |
| PyRange.Countdown | inven_crawler_v2.py:174 | the loop's ids are `max_idx - k*step`, all above `min_idx`, strictly descending, the next one would not be above `min_idx`, and there are none exactly when `max_idx <= min_idx` |
| Text.NatToString | inven_crawler_v2.py:83-84 | the decimal text of a natural number is a non-empty digit string without a leading zero; 0 is written `0` |
| Text.ParseNatToString | inven_crawler_v2.py:83-84 | reading the decimal text back gives the number |
| Text.IntToString | inven_crawler_v2.py:83-84 | `f"{i}"` is non-empty integer text that reads back as `i`, it is all digits exactly when `i >= 0`, 0 is written `0` and only 0 starts with `0`, and a negative number is `-` followed by digits with no leading zero |
| Text.SplitJoin | inven_crawler_v2.py:95 | splitting a `sep`-join of parts free of `sep` gives the parts back |
| Text.Decimals | inven_crawler_v2.py:95 | `[f"{i}" for i in xs]` keeps length and renders each element |
| Text.Titles | inven_crawler_v2.py:95 | the `titles` field holds only digits and bar characters, starting with a digit when not empty (its pieces: `TitlesRoundTrip`) |
| Text.BlocksAreHundreds | inven_crawler_v2.py:95 | `range(100, lastblock + 1, 100)` is `100, 200, …`, `lastblock / 100` values (none below 100), each at most `lastblock` |
| Text.TitlesEmpty | inven_crawler_v2.py:93-95 | the `titles` field is empty exactly when `lastblock < 100` |
| Text.TitlesRoundTrip | inven_crawler_v2.py:95 | splitting `titles` at the bar character gives `lastblock / 100` pieces, the `k`-th being exactly `f"{100 * (k + 1)}"` (canonical digits, no leading zero), reading back as `100, 200, …` in order |
| HitText.DigitRunEnd | inven_crawler_v2.py:27-28 | the end of the maximal run of digits starting at a position (`\d+` is greedy) |
| HitText.FirstMatch | inven_crawler_v2.py:27-28 | the leftmost position at or after `from` that follows the marker and holds a digit, or none when no such position exists |
| HitText.Search | inven_crawler_v2.py:27-28 | `search` fails exactly when no digit follows the marker; otherwise it returns the non-empty digit run at the leftmost such position |
| HitText.SearchFindsMarkedNumber | inven_crawler_v2.py:55-56 | a hit line `prefix + marker + digits + rest`, where `prefix` lacks the marker's first character and `rest` does not continue the number, yields exactly `digits` |
| Article.ParseArticle | inven_crawler_v2.py:43-70 | the parse succeeds exactly when both the view and like counts are found; the view count is the `조회: ` match and the like count the `추천: ` match, both digit strings, and the other fields are the page's texts |
| Article.ParseHitLine | inven_crawler_v2.py:54-56 | a hit line `조회: <view><sep>추천: <like><rest>` parses to exactly the counts `view` and `like` and the page's other texts |
| Article.CommentRequest | inven_crawler_v2.py:82-91 | the first comment form carries the board id and article id as their canonical integer text `f"{i}"` (which reads back as them), and no `titles` |
| Article.CrawlComments | inven_crawler_v2.py:72-97 | with `lastblock == 0` the first reply is the result; with another `lastblock` the result is the reply, whatever it holds, to the same form plus `titles` for that `lastblock`; a failed first request, or a first reply without `lastblock`, fails |
| Article.CrawlArticle | inven_crawler_v2.py:99-107 | an article is obtained exactly when its page, both counts and its comments are; the record carries the board id, the article id, the parsed fields and the comments |
| RangeResolution.AfterResume | inven_crawler_v2.py:137-145 | only `True` changes `max_idx`: from a non-empty store it becomes the smallest stored id, without a store `None`, and an empty store raises |
| RangeResolution.ResolveMax | inven_crawler_v2.py:137-153 | the resolved `max_idx` is the listing's first regular id, a non-zero stored id on resume, or a non-zero explicit integer; resuming from an empty store raises, and any other failure is the listing's |
| RangeResolution.ResolveMin | inven_crawler_v2.py:155-171 | `min_idx` fails only for `None` with a non-numeric listing cell; `None` otherwise gives 0 or the listing's id, a non-negative value is kept, and `-k` gives `max_idx - k` |
| RangeResolution.ResolveRange | inven_crawler_v2.py:137-171 | `max_idx` is resolved first and its error wins; the bounds are both resolved values, `min_idx` resolved against the resolved `max_idx`; when `max_idx` resolves and `min_idx` fails, the error is the failed `int(...)` of a non-numeric value; no error here is a zero step |
| RangeResolution.ResolveMaxCases | inven_crawler_v2.py:137-153 | `max_idx`: resume gives the smallest stored id (0 falls through to the listing), an empty store raises, a missing store or any falsy value reads the listing, a non-zero integer is kept |
| RangeResolution.ResolveMinCases | inven_crawler_v2.py:155-171 | `min_idx`: `-k` gives `max_idx - k`, a positive integer is kept, `True` is 1, `None` reads the deep listing (0 when the page cannot be read), `0` and `False` give 0 |
| RangeResolution.OffsetBelowMax | inven_crawler_v2.py:166-167 | a negative `min_idx` of `-k` resolves to exactly `k` below `max_idx` |
| Schedule.AfterVisit | inven_crawler_v2.py:176-184 | with auto-save on and the grown buffer length a multiple of 50, the grown buffer is flushed into the store and emptied; otherwise the fetched record (if any) joins the buffer and the store is untouched; with auto-save a non-empty buffer is never left at a multiple of 50 |
| Schedule.Run | inven_crawler_v2.py:174-187 | without auto-save the loop leaves the store untouched, and without sampling as well the buffer gains exactly the records fetched for every id (the general case: `RunThenSave`) |
| Schedule.Harvest | inven_crawler_v2.py:174-176 | at most one record per id, and one for every id when every fetch succeeds (its ids: `HarvestIds`) |
| Schedule.RunStep | inven_crawler_v2.py:174-187 | the loop from id `k` is one iteration then either the sampling stop or the loop from `k + 1` |
| Schedule.Visits | inven_crawler_v2.py:174-187 | the loop visits at most all ids, and at least one when there are any |
| Schedule.FailedVisitChangesNothing | inven_crawler_v2.py:175-184 | a failed fetch leaves buffer and store as they were, for every buffer except a non-empty multiple of 50 that auto-save flushes |
| Schedule.RunBufferBound | inven_crawler_v2.py:183-184 | with auto-save on, the buffer stays below 50 records throughout the loop |
| Schedule.RunVisitsAll | inven_crawler_v2.py:183-187 | without sampling, or with auto-save on, the loop visits every id |
| Schedule.RunStopsEarly | inven_crawler_v2.py:186-187 | when the loop stops before the last id, sampling is on and the buffer holds more than 100 records |
| Schedule.SamplingCap | inven_crawler_v2.py:186-187 | with sampling on, the loop ends with at most 101 buffered records |
| Schedule.HarvestConcat | inven_crawler_v2.py:176 | the records of the first `n` visited ids are those of the first id followed by those of the next `n - 1` |
| Schedule.VisitThenSave | inven_crawler_v2.py:176-184 | one iteration (with any auto-save) followed by a save stores what a single save of the old buffer, the new record and the rest would |
| Schedule.RunThenSave | inven_crawler_v2.py:174-189 | the loop with its auto-saves followed by the final save stores what one save of the old buffer and every fetched record would |
| Schedule.HarvestIds | inven_crawler_v2.py:176 | the fetched records carry exactly the ids whose fetch succeeded |
| Schedule.HarvestUnique | inven_crawler_v2.py:176 | distinct ids give records with distinct ids |
| Schedule.CrawlFromEmptyBuffer | inven_crawler_v2.py:174-189 | from an empty buffer and distinct ids, the loop plus final save equals one save of the harvest, whose records have distinct ids, namely the visited ids whose fetch succeeded |
| Crawler.ArticleFetchKeyed | inven_crawler_v2.py:104-105 | every article fetched for id `i` is tagged with id `i` |
| Crawler.CrawlFromNothingBuffered | inven_crawler_v2.py:174-189 | a crawl of `range(max_idx, min_idx, -step)` from an empty buffer ends, after its final save, as one save of every article fetched for a visited id |
| Crawler.ResumeRevisitsSmallestId | inven_crawler_v2.py:138-141 | resume starts the loop at the smallest stored id (a stored id), and every later id is below every stored id |
| Crawler.InvenCrawler.constructor | inven_crawler_v2.py:30-40 | a new crawler has the given board type, board id and file name, and an empty buffer |
| Crawler.InvenCrawler.SaveData | inven_crawler_v2.py:109-117 | an empty buffer returns false and changes nothing; otherwise the buffer is flushed into the store, emptied, and true is returned |
| Crawler.InvenCrawler.Visit | inven_crawler_v2.py:176-184 | one iteration appends the fetched record (if any) and auto-saves when the buffer length is a multiple of 50 |
| Crawler.InvenCrawler.Iteration | inven_crawler_v2.py:173-186 | one pass of the loop body reports the sampling `break` exactly when sampling is on and the buffer holds more than 100 records; the loop then ends in the new state, or else goes on from it at the next id |
| Crawler.InvenCrawler.CrawlLoop | inven_crawler_v2.py:173-186 | the `for` loop, including its sampling `break`, leaves buffer and store as `Run` describes |
| Crawler.InvenCrawler.CrawlIds | inven_crawler_v2.py:174-189 | the loop ends in the state `Run` describes and then saves; from an empty buffer the store ends as one save of every record fetched for a visited id |
| Crawler.InvenCrawler.Crawling | inven_crawler_v2.py:119-190 | a bound that cannot be resolved, or a zero step, raises before the loop and changes nothing; otherwise the loop runs over the resolved range and saves |

## Left out

- HTTP requests, sessions, headers, status checks and the `dummy` timestamp parameter are left out. The board is a `Site` oracle whose answers are parameters, and any failing request or missing element is `None`.
- HTML parsing with BeautifulSoup and the CSS selectors are left out. A page is given as the stripped texts of its elements, and a listing look-up as its result. `.strip()` is not modelled.
- The JSON file format, `pd.read_json`, `to_json`, `to_dict` and `reset_index` are left out. The store is the list of records in the file, in order.
- `time.sleep`, `random`, the `slow` option, `tqdm` progress and `print` are left out. They have no effect on buffer or store.
- The pause between the two comment requests is left out. Timing is not modelled.
- HitText.Search: `\d` is modelled as the ASCII digits `0`-`9`. Python also accepts other Unicode decimal digits.
- Exceptions other than `Exception` (such as `KeyboardInterrupt`) during the loop are left out. They would end the crawl without the final save.
- A store file without an `article_id` column (a `KeyError`) is left out. Every stored record has an id.
- Comment replies are kept as their `lastblock` and an opaque payload. The structure of the JSON payload is not modelled.
- main.py is not part of this model. It only constructs a crawler and calls `crawling`.
- `__main__` in inven_crawler_v2.py is not part of this model, for the same reason.
- Crawler.InvenCrawler.CrawlIds: the one-save form of the result is stated for a crawl that starts with an empty buffer. That is the case for every crawl of a fresh crawler. With a non-empty starting buffer, the method states the result through `Run` and `Flush` only.

=== FILE: article.dfy ===
// Fetching one article (`crawling_article`): the page, the fields parsed from
// it (`parsing_from_article`) and the comment requests
// (`crawling_article_comment`). The network is an oracle: each request either
// answers or fails, and any failure makes the whole article fail.

module Article {
  import opened Records
  import opened Text
  import HitText
  import opened RangeResolution

  /** The stripped texts of the page's `div.articleWriter`, `div.articleDate`,
      `div.articleHit`, `div.articleCategory`, `div.articleTitle` and
      `#powerbbsContent` elements. */
  datatype Page = Page(
    writer: string,
    date: string,
    hit: string,
    category: string,
    title: string,
    content: string)

  /** The form posted to the comment endpoint; `titles` is only sent on the
      second request. */
  datatype CommentForm = CommentForm(
    comeidx: string,
    articlecode: string,
    sortorder: string,
    act: string,
    replynick: string,
    replyidx: string,
    uploadurl: string,
    imageposition: string,
    titles: Option<string>)

  /** What the board answers. `None` stands for every way a request or the
      extraction of an element can fail (network error, error status, missing
      element, an answer that is not JSON). A comment answer without
      `lastblock` is still an answer: only the first one is asked for it. */
  datatype Site = Site(
    listingFirstId: RangeLookup,
    deepListingLastId: RangeLookup,
    articlePage: int -> Option<Page>,
    commentApi: CommentForm -> Option<CommentReply>)

  /** `parsing_from_article`: the fields, or `None` when either count is
      missing from the hit line. */
  function ParseArticle(page: Page): (r: Option<ArticleFields>)
    ensures r.Some? <==>
              HitText.Search(page.hit, HitText.ViewMarker).Some? &&
              HitText.Search(page.hit, HitText.LikeMarker).Some?
    ensures r.Some? ==>
              r.value.view != [] && AllDigits(r.value.view) &&
              r.value.like != [] && AllDigits(r.value.like) &&
              r.value.writer == page.writer && r.value.date == page.date &&
              r.value.title == page.title && r.value.content == page.content &&
              r.value.category == page.category
    ensures r.Some? ==>
              r.value.view == HitText.Search(page.hit, HitText.ViewMarker).value &&
              r.value.like == HitText.Search(page.hit, HitText.LikeMarker).value
  {
    match HitText.Search(page.hit, HitText.ViewMarker)
    case None => None
    case Some(view) =>
      match HitText.Search(page.hit, HitText.LikeMarker)
      case None => None
      case Some(like) =>
        Some(ArticleFields(page.writer, page.date, view, like, page.title, page.content, page.category))
  }

  /** A hit line `조회: <view><sep>추천: <like><rest>`, where `sep` neither
      continues the view count nor holds the like marker's first character and
      `rest` does not continue the like count, parses to exactly those counts
      and the page's other texts. */
  lemma ParseHitLine(page: Page, view: string, sep: string, like: string, rest: string)
    requires view != [] && AllDigits(view) && like != [] && AllDigits(like)
    requires sep == [] || !IsDigit(sep[0])
    requires HitText.LikeMarker[0] !in sep
    requires rest == [] || !IsDigit(rest[0])
    requires page.hit == HitText.ViewMarker + view + sep + HitText.LikeMarker + like + rest
    ensures ParseArticle(page) ==
              Some(ArticleFields(page.writer, page.date, view, like, page.title, page.content, page.category))
  {
    var tail := sep + HitText.LikeMarker + like + rest;
    var prefix := HitText.ViewMarker + view + sep;
    assert page.hit == [] + HitText.ViewMarker + view + tail;
    assert page.hit == prefix + HitText.LikeMarker + like + rest;
    assert tail == [] || !IsDigit(tail[0]) by {
      if sep == [] {
        assert tail[0] == HitText.LikeMarker[0];
      } else {
        assert tail[0] == sep[0];
      }
    }
    HitText.SearchFindsMarkedNumber([], HitText.ViewMarker, view, tail);
    LikeMarkerNotBefore(view, sep);
    HitText.SearchFindsMarkedNumber(prefix, HitText.LikeMarker, like, rest);
  }

  /** The like marker's first character does not occur in the view marker or
      the view count. */
  lemma LikeMarkerNotBefore(view: string, sep: string)
    requires AllDigits(view) && HitText.LikeMarker[0] !in sep
    ensures HitText.LikeMarker[0] !in HitText.ViewMarker + view + sep
  {
    var prefix := HitText.ViewMarker + view + sep;
    forall k | 0 <= k < |prefix| ensures prefix[k] != HitText.LikeMarker[0] {
      if k < |HitText.ViewMarker| {
        assert prefix[k] == HitText.ViewMarker[k];
      } else if k < |HitText.ViewMarker| + |view| {
        assert prefix[k] == view[k - |HitText.ViewMarker|];
      } else {
        assert prefix[k] == sep[k - |HitText.ViewMarker| - |view|];
      }
    }
  }

  /** The first comment request for an article of a board. */
  function CommentRequest(boardId: int, articleId: int): (f: CommentForm)
    ensures IntText(f.comeidx) && ParseInt(f.comeidx) == boardId
    ensures IntText(f.articlecode) && ParseInt(f.articlecode) == articleId
    ensures f.comeidx == IntToString(boardId) && f.articlecode == IntToString(articleId)
    ensures f.titles.None?
  {
    CommentForm(IntToString(boardId), IntToString(articleId), "date", "list", "", "0", "", "", None)
  }

  /** `crawling_article_comment`: when the first answer reports a `lastblock`
      other than 0, the request is repeated with every block listed in
      `titles`, and that second answer, whatever it holds, is the result. A
      first answer without `lastblock` raises a `KeyError`. */
  function CrawlComments(boardId: int, articleId: int, api: CommentForm -> Option<CommentReply>): (r: Option<CommentReply>)
    ensures r.Some? ==> api(CommentRequest(boardId, articleId)).Some? &&
                        api(CommentRequest(boardId, articleId)).value.lastblock.Some?
    ensures var first := CommentRequest(boardId, articleId);
            api(first).Some? && api(first).value.lastblock == Some(0) ==> r == api(first)
    ensures var first := CommentRequest(boardId, articleId);
            api(first).Some? && api(first).value.lastblock.Some? && api(first).value.lastblock.value != 0 ==>
              r == api(first.(titles := Some(Titles(api(first).value.lastblock.value))))
  {
    var first := CommentRequest(boardId, articleId);
    match api(first)
    case None => None
    case Some(reply) =>
      match reply.lastblock
      case None => None
      case Some(lastblock) =>
        if lastblock != 0 then api(first.(titles := Some(Titles(lastblock))))
        else Some(reply)
  }

  /** `crawling_article`: the record for `articleId`, tagged with the board and
      the article id, or `None` when the page, the hit counts or the comments
      cannot be had. */
  function CrawlArticle(boardId: int, articleId: int, site: Site): (r: Option<Record>)
    ensures r.Some? <==>
              site.articlePage(articleId).Some? &&
              ParseArticle(site.articlePage(articleId).value).Some? &&
              CrawlComments(boardId, articleId, site.commentApi).Some?
    ensures r.Some? ==>
              r.value.articleId == articleId && r.value.boardId == boardId &&
              r.value.fields == ParseArticle(site.articlePage(articleId).value).value &&
              r.value.comments == CrawlComments(boardId, articleId, site.commentApi).value
  {
    match site.articlePage(articleId)
    case None => None
    case Some(page) =>
      match ParseArticle(page)
      case None => None
      case Some(fields) =>
        match CrawlComments(boardId, articleId, site.commentApi)
        case None => None
        case Some(comments) => Some(Record(fields, boardId, articleId, comments))
  }
}

=== FILE: crawler.dfy ===
// The crawler object (`InvenCrawler`): its buffer `data`, the store file it
// saves to, `save_data`, and the range resolution and loop of `crawling`.

module Crawler {
  import opened Records
  import opened Store
  import opened PyRange
  import opened RangeResolution
  import opened Article
  import opened Schedule

  /** What the loop does for one id: `crawling_article` for this board. */
  function ArticleFetch(boardId: int, site: Site): int -> Option<Record>
  {
    (i: int) => CrawlArticle(boardId, i, site)
  }

  lemma ArticleFetchKeyed(boardId: int, site: Site)
    ensures Keyed(ArticleFetch(boardId, site))
  {
  }

  /** A crawl of `range(maxIdx, minIdx, -step)` that starts with an empty
      buffer ends, after its final save, as one save of its harvest would. */
  lemma CrawlFromNothingBuffered(store: Option<seq<Record>>, maxIdx: int, minIdx: int, step: int,
                                 opts: Options, boardId: int, site: Site)
    requires step != 0
    ensures var ids := Range(maxIdx, minIdx, -step);
            var fetch := ArticleFetch(boardId, site);
            var st := Checkpoint([], store);
            var last := Run(st, ids, opts, fetch);
            Flush(last.store, last.buffer) == Flush(store, Harvest(ids[..Visits(st, ids, opts, fetch)], fetch))
  {
    RangeDistinct(maxIdx, minIdx, -step);
    ArticleFetchKeyed(boardId, site);
    CrawlFromEmptyBuffer(store, Range(maxIdx, minIdx, -step), opts, ArticleFetch(boardId, site));
  }

  /** Resuming (`max_idx=True`) from a store whose smallest id `m` is not 0
      starts the loop at `m` itself: the first id visited is one already
      stored, and every later id lies below every stored id. */
  lemma ResumeRevisitsSmallestId(s: seq<Record>, listing: RangeLookup, floor: RangeLookup,
                                 minArg: PyArg, step: int)
    requires s != [] && MinId(s) != 0 && step > 0
    requires ResolveRange(PyBool(true), minArg, Some(s), listing, floor).Ok?
    requires ResolveRange(PyBool(true), minArg, Some(s), listing, floor).value.minIdx < MinId(s)
    ensures var b := ResolveRange(PyBool(true), minArg, Some(s), listing, floor).value;
            b.maxIdx == MinId(s) && b.maxIdx in Ids(s)
    ensures var b := ResolveRange(PyBool(true), minArg, Some(s), listing, floor).value;
            var ids := Range(b.maxIdx, b.minIdx, -step);
            ids != [] && ids[0] == MinId(s) &&
            forall k, r :: 1 <= k < |ids| && r in s ==> ids[k] < r.articleId
  {
    var b := ResolveRange(PyBool(true), minArg, Some(s), listing, floor).value;
    Countdown(b.maxIdx, b.minIdx, step);
  }

  class InvenCrawler {
    const boardType: string
    const boardId: int
    const filename: string
    /** The buffer of records not yet saved (`self.data`). */
    var data: seq<Record>
    /** The records in the file `filename`; `None` while the file is absent. */
    var store: Option<seq<Record>>

    constructor (boardType: string, boardId: int, filename: string, existing: Option<seq<Record>>)
      ensures this.boardType == boardType && this.boardId == boardId && this.filename == filename
      ensures data == [] && store == existing
    {
      this.boardType := boardType;
      this.boardId := boardId;
      this.filename := filename;
      data := [];
      store := existing;
    }

    /** `save_data`: an empty buffer is a no-op that reports false; otherwise
        the buffer is flushed into the store, emptied, and true is returned. */
    method SaveData() returns (saved: bool)
      modifies this
      ensures saved <==> old(data) != []
      ensures data == []
      ensures store == Flush(old(store), old(data))
      ensures old(data) == [] ==> store == old(store)
    {
      if data == [] {
        return false;
      }
      if store.None? {
        store := Some(data);
      } else {
        store := Some(DropDuplicates(store.value + data));
      }
      data := [];
      return true;
    }

    /** The bookkeeping of one loop iteration: append what the fetch gave, then
        auto-save when the buffer length is a multiple of 50. */
    method Visit(got: Option<Record>, autoSave: bool)
      modifies this
      ensures Checkpoint(data, store) == AfterVisit(Checkpoint(old(data), old(store)), got, autoSave)
    {
      if got.Some? {
        data := data + [got.value];
      }
      assert data == old(data) + Fetched(got);
      if autoSave && |data| % AutoSaveEvery == 0 {
        var _ := SaveData();
      }
    }

    /** The loop of `crawling` over `range(maxIdx, minIdx, -step)` and the final
        save. Starting from an empty buffer, the store ends as one save of every
        record fetched for a visited id would leave it. */
    method CrawlIds(opts: Options, maxIdx: int, minIdx: int, step: int, site: Site)
      requires step != 0
      modifies this
      ensures var ids := Range(maxIdx, minIdx, -step);
              var last := Run(Checkpoint(old(data), old(store)), ids, opts, ArticleFetch(boardId, site));
              data == [] && store == Flush(last.store, last.buffer)
      ensures var ids := Range(maxIdx, minIdx, -step);
              var fetch := ArticleFetch(boardId, site);
              var n := Visits(Checkpoint([], old(store)), ids, opts, fetch);
              old(data) == [] ==> store == Flush(old(store), Harvest(ids[..n], fetch))
    {
      var ids := Range(maxIdx, minIdx, -step);
      ghost var start := Checkpoint(data, store);
      CrawlLoop(opts, ids, site);
      var _ := SaveData();
      if start.buffer == [] {
        CrawlFromNothingBuffered(start.store, maxIdx, minIdx, step, opts, boardId, site);
      }
    }

    /** The `for` loop of `crawling` over `ids`, up to the sampling `break`:
        buffer and store end as `Run` says. */
    method CrawlLoop(opts: Options, ids: seq<int>, site: Site)
      modifies this
      ensures Checkpoint(data, store) == Run(Checkpoint(old(data), old(store)), ids, opts, ArticleFetch(boardId, site))
    {
      ghost var start := Checkpoint(data, store);
      var k := 0;
      while k < |ids|
        invariant 0 <= k <= |ids|
        invariant Run(start, ids, opts, ArticleFetch(boardId, site)) ==
                  Run(Checkpoint(data, store), ids[k..], opts, ArticleFetch(boardId, site))
      {
        var stop := Iteration(start, ids, k, opts, site);
        if stop {
          return;
        }
        k := k + 1;
      }
      assert ids[k..] == [];
    }

    /** One pass of the loop body for `ids[k]`: fetch, append, auto-save, and
        report whether the sampling `break` fires. Either the loop from
        `start` ends here, or it goes on from the new state at `ids[k + 1]`. */
    method Iteration(ghost start: Checkpoint, ids: seq<int>, k: nat, opts: Options, site: Site)
      returns (stop: bool)
      requires k < |ids|
      requires Run(start, ids, opts, ArticleFetch(boardId, site)) ==
               Run(Checkpoint(data, store), ids[k..], opts, ArticleFetch(boardId, site))
      modifies this
      ensures stop <==> opts.sampling && |data| > SampleLimit
      ensures stop ==> Run(start, ids, opts, ArticleFetch(boardId, site)) == Checkpoint(data, store)
      ensures !stop ==> Run(start, ids, opts, ArticleFetch(boardId, site)) ==
                        Run(Checkpoint(data, store), ids[k + 1..], opts, ArticleFetch(boardId, site))
    {
      ghost var before := Checkpoint(data, store);
      var got := CrawlArticle(boardId, ids[k], site);
      Visit(got, opts.autoSave);
      RunResumes(start, ids, k, before, Checkpoint(data, store), opts, ArticleFetch(boardId, site));
      stop := opts.sampling && |data| > SampleLimit;
    }

    /** `crawling`: resolve the bounds, then run the loop. Raising before the
        loop (a bound that cannot be resolved, a zero step) leaves buffer and
        store untouched. */
    method Crawling(opts: Options, maxArg: PyArg, minArg: PyArg, step: int, site: Site)
      returns (r: Result<Bounds, CrawlError>)
      modifies this
      ensures var resolved := ResolveRange(maxArg, minArg, old(store), site.listingFirstId, site.deepListingLastId);
              resolved.Err? ==> r == resolved && data == old(data) && store == old(store)
      ensures var resolved := ResolveRange(maxArg, minArg, old(store), site.listingFirstId, site.deepListingLastId);
              resolved.Ok? && step == 0 ==> r == Err(ZeroStep) && data == old(data) && store == old(store)
      ensures var resolved := ResolveRange(maxArg, minArg, old(store), site.listingFirstId, site.deepListingLastId);
              resolved.Ok? && step != 0 ==>
                var ids := Range(resolved.value.maxIdx, resolved.value.minIdx, -step);
                var last := Run(Checkpoint(old(data), old(store)), ids, opts, ArticleFetch(boardId, site));
                r == resolved && data == [] && store == Flush(last.store, last.buffer)
    {
      r := ResolveRange(maxArg, minArg, store, site.listingFirstId, site.deepListingLastId);
      if r.Err? {
        return;
      }
      if step == 0 {
        return Err(ZeroStep);
      }
      CrawlIds(opts, r.value.maxIdx, r.value.minIdx, step, site);
    }
  }
}

=== FILE: hittext.dfy ===
// The view and like counts in an article's hit line, found the way the
// patterns `(?<=조회: )\d+` and `(?<=추천: )\d+` find them with `search`:
// the leftmost position that is preceded by the marker and starts a digit, and
// from there the longest run of digits.

module HitText {
  import opened Records
  import opened Text

  /** The marker in front of the view count ("views: "). */
  const ViewMarker: string := "조회: "
  /** The marker in front of the like count ("likes: "). */
  const LikeMarker: string := "추천: "

  /** Position `p` of `text` is preceded by `marker` and holds a digit: the
      pattern can match there. */
  predicate LabelledDigitAt(text: string, marker: string, p: int)
  {
    |marker| <= p < |text| && text[p - |marker|..p] == marker && IsDigit(text[p])
  }

  /** The end of the run of digits that starts at `p`. */
  function DigitRunEnd(text: string, p: nat): (e: nat)
    requires p <= |text|
    ensures p <= e <= |text|
    ensures forall k :: p <= k < e ==> IsDigit(text[k])
    ensures e == |text| || !IsDigit(text[e])
    decreases |text| - p
  {
    if p < |text| && IsDigit(text[p]) then DigitRunEnd(text, p + 1) else p
  }

  /** The first position at or after `from` where the pattern can match. */
  function FirstMatch(text: string, marker: string, from: nat): (r: Option<nat>)
    requires from <= |text|
    ensures r.Some? ==>
              from <= r.value && LabelledDigitAt(text, marker, r.value) &&
              forall q :: from <= q < r.value ==> !LabelledDigitAt(text, marker, q)
    ensures r.None? ==> forall q :: from <= q < |text| ==> !LabelledDigitAt(text, marker, q)
    decreases |text| - from
  {
    if from == |text| then None
    else if LabelledDigitAt(text, marker, from) then Some(from)
    else FirstMatch(text, marker, from + 1)
  }

  /** `pattern.search(text).group()`, or `None` where `search` finds nothing
      (and `.group()` then raises). */
  function Search(text: string, marker: string): (r: Option<string>)
    ensures r.None? <==> forall q :: 0 <= q < |text| ==> !LabelledDigitAt(text, marker, q)
    ensures r.Some? ==>
              r.value != [] && AllDigits(r.value) &&
              exists p :: LabelledDigitAt(text, marker, p) &&
                (forall q :: 0 <= q < p ==> !LabelledDigitAt(text, marker, q)) &&
                r.value == text[p..DigitRunEnd(text, p)]
  {
    match FirstMatch(text, marker, 0)
    case None => None
    case Some(p) =>
      var e := DigitRunEnd(text, p);
      assert e > p;
      Some(text[p..e])
  }

  /** A marker followed by a number, and by anything that does not continue the
      number, yields exactly that number, whatever text without the marker's
      first character comes before it. */
  lemma SearchFindsMarkedNumber(prefix: string, marker: string, digits: string, rest: string)
    requires marker != [] && marker[0] !in prefix
    requires digits != [] && AllDigits(digits)
    requires rest == [] || !IsDigit(rest[0])
    ensures Search(prefix + marker + digits + rest, marker) == Some(digits)
  {
    var tail := marker + (digits + rest);
    var text := prefix + tail;
    assert text == prefix + marker + digits + rest;
    var n := |prefix| + |marker|;
    var e := n + |digits|;
    forall k | 0 <= k < |marker| ensures text[|prefix| + k] == marker[k] {
      assert text[|prefix| + k] == tail[k];
    }
    forall k | n <= k < e ensures text[k] == digits[k - n] {
      assert text[k] == tail[k - |prefix|];
    }
    assert text[|prefix|..n] == marker;
    assert text[n..e] == digits;
    assert LabelledDigitAt(text, marker, n);
    NoMarkerBefore(prefix, marker, tail);
    assert FirstMatch(text, marker, 0) == Some(n);
    assert e == |text| || !IsDigit(text[e]) by {
      if e < |text| {
        assert text[e] == tail[e - |prefix|] == rest[0];
      }
    }
    DigitRunFrom(text, n, e);
  }

  /** No match can end inside a prefix free of the marker's first character. */
  lemma NoMarkerBefore(prefix: string, marker: string, tail: string)
    requires marker != [] && marker[0] !in prefix
    ensures forall q :: 0 <= q < |prefix| + |marker| ==> !LabelledDigitAt(prefix + tail, marker, q)
  {
    var text := prefix + tail;
    forall q | 0 <= q < |prefix| + |marker| ensures !LabelledDigitAt(text, marker, q) {
      if |marker| <= q < |text| {
        assert text[q - |marker|] == prefix[q - |marker|];
        assert text[q - |marker|..q][0] == text[q - |marker|];
      }
    }
  }

  lemma DigitRunFrom(text: string, p: nat, e: nat)
    requires p <= e <= |text|
    requires forall k :: p <= k < e ==> IsDigit(text[k])
    requires e == |text| || !IsDigit(text[e])
    ensures DigitRunEnd(text, p) == e
    decreases e - p
  {
    if p < e {
      DigitRunFrom(text, p + 1, e);
    }
  }
}

=== FILE: pyrange.dfy ===
// Python's `range(start, stop, step)` as a sequence: used by the crawl loop
// (`range(max_idx, min_idx, -step)`) and by the comment `titles` field
// (`range(100, lastblock + 1, 100)`).

module PyRange {

  /** The values of `range(start, stop, step)`; Python rejects `step == 0`.
      Every value lies from `start` up to but excluding `stop`, in the
      direction of `step`, and the range is empty exactly when `start` is not
      before `stop` in that direction. */
  function Range(start: int, stop: int, step: int): (r: seq<int>)
    requires step != 0
    ensures forall k :: 0 <= k < |r| ==> if step > 0 then start <= r[k] < stop else stop < r[k] <= start
    ensures r == [] <==> if step > 0 then start >= stop else start <= stop
    decreases if step > 0 then stop - start else start - stop
  {
    if (step > 0 && start < stop) || (step < 0 && start > stop) then
      [start] + Range(start + step, stop, step)
    else []
  }

  /** The k-th value is `start + k * step`; every value lies before `stop`,
      and the value one step past the last would not. */
  lemma {:induction false} RangeValues(start: int, stop: int, step: int)
    requires step != 0
    ensures var r := Range(start, stop, step);
            forall k :: 0 <= k < |r| ==> r[k] == start + k * step
    ensures var r := Range(start, stop, step);
            forall k :: 0 <= k < |r| ==> if step > 0 then r[k] < stop else r[k] > stop
    ensures var n := |Range(start, stop, step)|;
            if step > 0 then start + n * step >= stop else start + n * step <= stop
    decreases if step > 0 then stop - start else start - stop
  {
    var r := Range(start, stop, step);
    if (step > 0 && start < stop) || (step < 0 && start > stop) {
      var rest := Range(start + step, stop, step);
      RangeValues(start + step, stop, step);
      assert r == [start] + rest;
      forall k | 1 <= k < |r| ensures r[k] == start + k * step {
        assert r[k] == rest[k - 1];
        StepMore(start, k - 1, step);
      }
      StepMore(start, |rest|, step);
    }
  }

  /** One more step: `start + step + k * step == start + (k + 1) * step`. */
  lemma StepMore(start: int, k: int, step: int)
    ensures start + step + k * step == start + (k + 1) * step
  {
  }

  /** The values move strictly in the direction of `step`, so none repeats. */
  lemma {:induction false} RangeStrictlyMonotone(start: int, stop: int, step: int)
    requires step != 0
    ensures var r := Range(start, stop, step);
            forall i, j :: 0 <= i < j < |r| ==> if step > 0 then r[i] < r[j] else r[i] > r[j]
    decreases if step > 0 then stop - start else start - stop
  {
    var r := Range(start, stop, step);
    if (step > 0 && start < stop) || (step < 0 && start > stop) {
      var rest := Range(start + step, stop, step);
      RangeStrictlyMonotone(start + step, stop, step);
      RangeValues(start + step, stop, step);
      assert r == [start] + rest;
      forall i, j | 0 <= i < j < |r| ensures if step > 0 then r[i] < r[j] else r[i] > r[j] {
        if i == 0 {
          assert r[j] == rest[j - 1];
          RangeFirstBound(start + step, stop, step, j - 1);
        } else {
          assert r[i] == rest[i - 1] && r[j] == rest[j - 1];
        }
      }
    }
  }

  /** No value of a range repeats. */
  lemma RangeDistinct(start: int, stop: int, step: int)
    requires step != 0
    ensures forall i, j :: 0 <= i < j < |Range(start, stop, step)| ==>
              Range(start, stop, step)[i] != Range(start, stop, step)[j]
  {
    RangeStrictlyMonotone(start, stop, step);
  }

  lemma RangeFirstBound(start: int, stop: int, step: int, k: int)
    requires step != 0 && 0 <= k < |Range(start, stop, step)|
    ensures if step > 0 then Range(start, stop, step)[k] >= start
            else Range(start, stop, step)[k] <= start
  {
    RangeValues(start, stop, step);
    if step > 0 {
      assert k * step >= 0;
    } else {
      assert k * step <= 0;
    }
  }

  /** The crawl's id schedule `range(max_idx, min_idx, -step)` for a positive
      step: `max_idx, max_idx - step, ...`, strictly descending, each above
      `min_idx`, the first id at or below `min_idx` left out; nothing at all
      when `max_idx <= min_idx`. */
  lemma Countdown(maxIdx: int, minIdx: int, step: int)
    requires step > 0
    ensures var r := Range(maxIdx, minIdx, -step);
            forall k :: 0 <= k < |r| ==> r[k] == maxIdx - k * step && r[k] > minIdx
    ensures maxIdx - |Range(maxIdx, minIdx, -step)| * step <= minIdx
    ensures var r := Range(maxIdx, minIdx, -step);
            forall i, j :: 0 <= i < j < |r| ==> r[i] > r[j]
    ensures maxIdx <= minIdx <==> Range(maxIdx, minIdx, -step) == []
  {
    var r := Range(maxIdx, minIdx, -step);
    RangeValues(maxIdx, minIdx, -step);
    RangeStrictlyMonotone(maxIdx, minIdx, -step);
    forall k | 0 <= k < |r| ensures r[k] == maxIdx - k * step {
      StepDown(k, step);
    }
    StepDown(|r|, step);
  }

  /** `k` steps of `-step` go down by `k * step`. */
  lemma StepDown(k: int, step: int)
    ensures k * -step == -(k * step)
  {
  }
}

=== FILE: range_resolution.dfy ===
// Turning the overloaded `max_idx` / `min_idx` arguments of `crawling` into
// the two integers the crawl loop counts between. Python's `bool` is an `int`,
// so `True` and `False` pass the integer tests as 1 and 0.

module RangeResolution {
  import opened Records

  /** A Python value passed as `max_idx` or `min_idx`. */
  datatype PyArg = PyNone | PyBool(b: bool) | PyInt(n: int)

  /** Reading an article id off a listing page: the page or the row could not
      be had, the cell's text is not an integer, or it is `n`. */
  datatype RangeLookup = Unreachable | NotNumeric | Found(n: int)

  /** Why `crawling` raises before its loop starts. */
  datatype CrawlError =
    | EmptyStore         // `min` over a store without records
    | ListingUnavailable // the listing page for `max_idx` could not be read
    | NotAnInteger       // `int(...)` of a listing cell that is not a number
    | ZeroStep           // `range` with a step of 0

  datatype Bounds = Bounds(maxIdx: int, minIdx: int)

  /** Python truthiness: `None`, `False` and `0` are false. */
  predicate Truthy(v: PyArg)
  {
    match v
    case PyNone => false
    case PyBool(b) => b
    case PyInt(n) => n != 0
  }

  /** `int(v)` for a value that passes `isinstance(v, int)`. */
  function IntValue(v: PyArg): int
    requires !v.PyNone?
  {
    match v
    case PyBool(b) => if b then 1 else 0
    case PyInt(n) => n
  }

  /** `int(text)` of a listing cell. */
  function FromListing(lookup: RangeLookup): Result<int, CrawlError>
  {
    match lookup
    case Unreachable => Err(ListingUnavailable)
    case NotNumeric => Err(NotAnInteger)
    case Found(n) => Ok(n)
  }

  /** `max_idx` after the resume step: `True` becomes the smallest stored id,
      or `None` when there is no store. */
  function AfterResume(arg: PyArg, store: Option<seq<Record>>): (r: Result<PyArg, CrawlError>)
    ensures arg != PyBool(true) ==> r == Ok(arg)
    ensures r.Err? <==> arg == PyBool(true) && store == Some([])
    ensures r.Err? ==> r.error == EmptyStore
    ensures arg == PyBool(true) && r.Ok? && store.Some? ==>
              r.value.PyInt? && r.value.n in Ids(store.value) &&
              forall rec :: rec in store.value ==> r.value.n <= rec.articleId
    ensures arg == PyBool(true) && store.None? ==> r == Ok(PyNone)
  {
    if arg == PyBool(true) then
      match store
      case None => Ok(PyNone)
      case Some(s) => if s == [] then Err(EmptyStore) else Ok(PyInt(MinId(s)))
    else Ok(arg)
  }

  /** The resolved `max_idx`: a value that is still falsy after the resume
      step is replaced by the first regular (non-notice) id of the listing. */
  function ResolveMax(arg: PyArg, store: Option<seq<Record>>, listing: RangeLookup): (r: Result<int, CrawlError>)
    ensures r.Ok? ==>
              (listing.Found? && r.value == listing.n) ||
              (arg == PyBool(true) && store.Some? && r.value in Ids(store.value) && r.value != 0) ||
              (arg.PyInt? && r.value == arg.n && arg.n != 0)
    ensures r == Err(EmptyStore) <==> arg == PyBool(true) && store == Some([])
    ensures r.Err? && r.error != EmptyStore ==> r == FromListing(listing)
  {
    match AfterResume(arg, store)
    case Err(e) => Err(e)
    case Ok(v) => if !Truthy(v) then FromListing(listing) else Ok(IntValue(v))
  }

  /** The resolved `min_idx`: `None` asks the deep listing page for a floor and
      falls back to 0 when the page cannot be read; a positive value is kept;
      a negative value is an offset below `maxIdx`; anything else is 0. */
  function ResolveMin(arg: PyArg, maxIdx: int, floor: RangeLookup): (r: Result<int, CrawlError>)
    ensures r.Err? <==> arg.PyNone? && floor.NotNumeric?
    ensures r.Err? ==> r.error == NotAnInteger
    ensures arg.PyNone? && r.Ok? ==> r.value == 0 || (floor.Found? && r.value == floor.n)
    ensures !arg.PyNone? && IntValue(arg) >= 0 ==> r == Ok(IntValue(arg))
    ensures !arg.PyNone? && IntValue(arg) < 0 ==> r.Ok? && maxIdx - r.value == -IntValue(arg)
  {
    if arg.PyNone? then
      match floor
      case Unreachable => Ok(0)
      case NotNumeric => Err(NotAnInteger)
      case Found(n) => Ok(n)
    else if IntValue(arg) > 0 then Ok(IntValue(arg))
    else if IntValue(arg) < 0 then Ok(maxIdx - (-IntValue(arg)))
    else Ok(0)
  }

  /** Both bounds, `max_idx` first, as `crawling` resolves them. */
  function ResolveRange(maxArg: PyArg, minArg: PyArg, store: Option<seq<Record>>,
                        listing: RangeLookup, floor: RangeLookup): (r: Result<Bounds, CrawlError>)
    ensures ResolveMax(maxArg, store, listing).Err? ==> r == Err(ResolveMax(maxArg, store, listing).error)
    ensures r.Ok? <==>
              ResolveMax(maxArg, store, listing).Ok? &&
              ResolveMin(minArg, ResolveMax(maxArg, store, listing).value, floor).Ok?
    ensures r.Ok? ==>
              ResolveMax(maxArg, store, listing) == Ok(r.value.maxIdx) &&
              ResolveMin(minArg, r.value.maxIdx, floor) == Ok(r.value.minIdx)
    ensures r.Err? ==> r.error != ZeroStep
    ensures ResolveMax(maxArg, store, listing).Ok? && r.Err? ==> r.error == NotAnInteger
  {
    match ResolveMax(maxArg, store, listing)
    case Err(e) => Err(e)
    case Ok(maxIdx) =>
      match ResolveMin(minArg, maxIdx, floor)
      case Err(e) => Err(e)
      case Ok(minIdx) => Ok(Bounds(maxIdx, minIdx))
  }

  /** The cases of `max_idx`: resume from a non-empty store gives its smallest
      id (unless that id is 0, which is falsy); resume without a store and
      every falsy value fall through to the listing; a truthy integer is kept. */
  lemma ResolveMaxCases(arg: PyArg, store: Option<seq<Record>>, listing: RangeLookup)
    ensures arg == PyBool(true) && store.Some? && store.value != [] && MinId(store.value) != 0 ==>
              ResolveMax(arg, store, listing) == Ok(MinId(store.value)) &&
              forall r :: r in store.value ==> MinId(store.value) <= r.articleId
    ensures arg == PyBool(true) && store.Some? && store.value != [] && MinId(store.value) == 0 ==>
              ResolveMax(arg, store, listing) == FromListing(listing)
    ensures arg == PyBool(true) && store == Some([]) ==> ResolveMax(arg, store, listing) == Err(EmptyStore)
    ensures arg == PyBool(true) && store.None? ==> ResolveMax(arg, store, listing) == FromListing(listing)
    ensures !Truthy(arg) ==> ResolveMax(arg, store, listing) == FromListing(listing)
    ensures arg.PyInt? && arg.n != 0 ==> ResolveMax(arg, store, listing) == Ok(arg.n)
  {
  }

  /** The cases of `min_idx`: `-k` gives `maxIdx - k`, a positive integer is
      kept, `True` is 1, `None` gives the listing floor or 0 when that page
      cannot be read, and 0 or `False` give 0. */
  lemma ResolveMinCases(arg: PyArg, maxIdx: int, floor: RangeLookup)
    ensures arg.PyInt? && arg.n < 0 ==> ResolveMin(arg, maxIdx, floor) == Ok(maxIdx + arg.n)
    ensures arg.PyInt? && arg.n > 0 ==> ResolveMin(arg, maxIdx, floor) == Ok(arg.n)
    ensures arg == PyBool(true) ==> ResolveMin(arg, maxIdx, floor) == Ok(1)
    ensures arg == PyNone ==>
              ResolveMin(arg, maxIdx, floor) ==
                if floor.Unreachable? then Ok(0) else FromListing(floor)
    ensures arg == PyInt(0) || arg == PyBool(false) ==> ResolveMin(arg, maxIdx, floor) == Ok(0)
  {
  }

  /** A negative `min_idx` of `-k` always leaves room below `max_idx`: the
      bound is exactly `k` below it, so the loop starts at `max_idx` and stops
      before `max_idx - k` (with a step of 1, exactly `k` ids). */
  lemma OffsetBelowMax(maxArg: PyArg, k: int, store: Option<seq<Record>>,
                       listing: RangeLookup, floor: RangeLookup)
    requires k > 0
    requires ResolveRange(maxArg, PyInt(-k), store, listing, floor).Ok?
    ensures var b := ResolveRange(maxArg, PyInt(-k), store, listing, floor).value;
            b.minIdx == b.maxIdx - k && b.minIdx < b.maxIdx
  {
  }
}

=== FILE: records.dfy ===
// Article records as the crawler stores them, and the facts about their
// `article_id` keys that the store merge and the resume logic rely on.

module Records {

  datatype Option<T> = None | Some(value: T)

  datatype Result<T, E> = Ok(value: T) | Err(error: E)

  /** The JSON answer of the comment endpoint: its `lastblock` field (`None`
      when the answer has none), and the rest of the payload kept opaque. */
  datatype CommentReply = CommentReply(lastblock: Option<int>, payload: string)

  /** The fields `parsing_from_article` extracts from an article page. The view
      and like counts stay strings, as the regular expression returns them. */
  datatype ArticleFields = ArticleFields(
    writer: string,
    date: string,
    view: string,
    like: string,
    title: string,
    content: string,
    category: string)

  /** One crawled article: the parsed fields plus what `crawling_article` adds. */
  datatype Record = Record(
    fields: ArticleFields,
    boardId: int,
    articleId: int,
    comments: CommentReply)

  /** The set of article ids occurring in a sequence of records. */
  function Ids(s: seq<Record>): set<int>
  {
    set r | r in s :: r.articleId
  }

  /** No two records share an article id. */
  predicate UniqueIds(s: seq<Record>)
  {
    forall i, j :: 0 <= i < j < |s| ==> s[i].articleId != s[j].articleId
  }

  lemma IdsConcat(a: seq<Record>, b: seq<Record>)
    ensures Ids(a + b) == Ids(a) + Ids(b)
  {
    forall k | k in Ids(a + b) ensures k in Ids(a) + Ids(b) {
      var r :| r in a + b && r.articleId == k;
      assert r in a || r in b;
    }
    forall k | k in Ids(a) + Ids(b) ensures k in Ids(a + b) {
      if k in Ids(a) {
        var r :| r in a && r.articleId == k;
        assert r in a + b;
      } else {
        var r :| r in b && r.articleId == k;
        assert r in a + b;
      }
    }
  }

  lemma IdsAt(s: seq<Record>, i: int)
    requires 0 <= i < |s|
    ensures s[i].articleId in Ids(s)
  {
    assert s[i] in s;
  }

  /** Two duplicate-free sequences with no id in common join into one. */
  lemma UniqueIdsConcat(a: seq<Record>, b: seq<Record>)
    requires UniqueIds(a) && UniqueIds(b)
    requires forall i, j :: 0 <= i < |a| && 0 <= j < |b| ==> a[i].articleId != b[j].articleId
    ensures UniqueIds(a + b)
  {
    forall i, j | 0 <= i < j < |a + b| ensures (a + b)[i].articleId != (a + b)[j].articleId {
      if j < |a| {
      } else if i < |a| {
        assert (a + b)[i] == a[i] && (a + b)[j] == b[j - |a|];
      } else {
        assert (a + b)[i] == b[i - |a|] && (a + b)[j] == b[j - |a|];
      }
    }
  }

  /** The position of the first record carrying article id `id`. */
  function FirstIndex(s: seq<Record>, id: int): (i: nat)
    requires id in Ids(s)
    ensures i < |s| && s[i].articleId == id
    ensures forall j :: 0 <= j < i ==> s[j].articleId != id
  {
    if s[0].articleId == id then 0
    else
      assert id in Ids(s[1..]) by {
        var r :| r in s && r.articleId == id;
        assert s == [s[0]] + s[1..];
        assert r in s[1..];
      }
      FirstIndex(s[1..], id) + 1
  }

  /** Appending a record does not move the first occurrence of an id already
      present, and puts the first occurrence of a new id at the end. */
  lemma FirstIndexAppend(s: seq<Record>, x: Record, id: int)
    requires id in Ids(s + [x])
    ensures id in Ids(s) ==> FirstIndex(s + [x], id) == FirstIndex(s, id)
    ensures id !in Ids(s) ==> FirstIndex(s + [x], id) == |s|
  {
    var i1 := FirstIndex(s + [x], id);
    if id in Ids(s) {
      var i2 := FirstIndex(s, id);
      assert (s + [x])[i2] == s[i2];
    } else {
      if i1 < |s| {
        assert (s + [x])[i1] == s[i1];
        IdsAt(s, i1);
      }
    }
  }

  /** The smallest article id of a non-empty sequence of records
      (`min(df["article_id"])`). */
  function MinId(s: seq<Record>): (m: int)
    requires s != []
    ensures m in Ids(s)
    ensures forall r :: r in s ==> m <= r.articleId
  {
    if |s| == 1 then
      assert s[0] in s;
      s[0].articleId
    else
      var rest := MinId(s[1..]);
      assert s == [s[0]] + s[1..];
      assert s[0] in s;
      assert Ids(s[1..]) <= Ids(s) by {
        forall k | k in Ids(s[1..]) ensures k in Ids(s) {
          var r :| r in s[1..] && r.articleId == k;
          assert r in s;
        }
      }
      if s[0].articleId < rest then s[0].articleId else rest
  }
}

=== FILE: schedule.dfy ===
// The bookkeeping of the crawl loop in `crawling`, as a state machine over the
// in-memory buffer and the store: each visited id appends the fetched record
// (a failed fetch appends nothing), auto-save flushes when the buffer length is
// a multiple of 50, and sampling stops the loop once the buffer holds more
// than 100 records.

module Schedule {
  import opened Records
  import opened Store

  /** `not len(self.data) % 50`: the auto-save period. */
  const AutoSaveEvery: nat := 50
  /** `len(self.data) > 100`: the sampling limit. */
  const SampleLimit: nat := 100

  datatype Options = Options(autoSave: bool, sampling: bool)

  /** The buffer (`self.data`) and the store (`None` while the file is absent). */
  datatype Checkpoint = Checkpoint(buffer: seq<Record>, store: Option<seq<Record>>)

  /** The fetch oracle tags each record with the id it was fetched for. */
  ghost predicate Keyed(fetch: int -> Option<Record>)
  {
    forall i :: fetch(i).Some? ==> fetch(i).value.articleId == i
  }

  /** The record list a fetch contributes: one record or none. */
  function Fetched(got: Option<Record>): seq<Record>
  {
    if got.Some? then [got.value] else []
  }

  /** The bookkeeping of one iteration, before the sampling test: auto-save
      flushes the grown buffer and empties it exactly when it is on and the
      grown length is a multiple of 50; otherwise the fetched record joins the
      buffer and the store is not touched. With auto-save on, a non-empty
      buffer is never left at a multiple of 50. */
  function AfterVisit(st: Checkpoint, got: Option<Record>, autoSave: bool): (r: Checkpoint)
    ensures autoSave && |st.buffer + Fetched(got)| % AutoSaveEvery == 0 ==>
              r == Checkpoint([], Flush(st.store, st.buffer + Fetched(got)))
    ensures !autoSave ==> r == Checkpoint(st.buffer + Fetched(got), st.store)
    ensures |st.buffer + Fetched(got)| % AutoSaveEvery != 0 ==> r == Checkpoint(st.buffer + Fetched(got), st.store)
    ensures autoSave ==> r.buffer == [] || |r.buffer| % AutoSaveEvery != 0
  {
    var buffer := st.buffer + Fetched(got);
    if autoSave && |buffer| % AutoSaveEvery == 0 then Checkpoint([], Flush(st.store, buffer))
    else Checkpoint(buffer, st.store)
  }

  /** The sampling `break`. */
  predicate Stops(st: Checkpoint, opts: Options)
  {
    opts.sampling && |st.buffer| > SampleLimit
  }

  /** The state when the loop over `ids` ends, before the final save. Without
      auto-save the store is untouched, and without sampling as well the
      buffer has simply gained every record fetched for `ids`. */
  function Run(st: Checkpoint, ids: seq<int>, opts: Options, fetch: int -> Option<Record>): (r: Checkpoint)
    ensures !opts.autoSave ==> r.store == st.store
    ensures !opts.autoSave && !opts.sampling ==> r.buffer == st.buffer + Harvest(ids, fetch)
    decreases |ids|
  {
    if ids == [] then st
    else
      var next := AfterVisit(st, fetch(ids[0]), opts.autoSave);
      assert st.buffer + Fetched(fetch(ids[0])) + Harvest(ids[1..], fetch) ==
             st.buffer + (Fetched(fetch(ids[0])) + Harvest(ids[1..], fetch));
      if Stops(next, opts) then next else Run(next, ids[1..], opts, fetch)
  }

  /** The iteration for `ids[k]` followed by the rest of the loop. */
  lemma RunStep(st: Checkpoint, ids: seq<int>, k: nat, opts: Options, fetch: int -> Option<Record>)
    requires k < |ids|
    ensures var next := AfterVisit(st, fetch(ids[k]), opts.autoSave);
            Run(st, ids[k..], opts, fetch) ==
              if Stops(next, opts) then next else Run(next, ids[k + 1..], opts, fetch)
  {
    assert ids[k..][0] == ids[k] && ids[k..][1..] == ids[k + 1..];
  }

  /** A loop that has reached `ids[k]` from `start` in state `before` either
      stops in the state after that iteration or goes on from it. */
  lemma RunResumes(start: Checkpoint, ids: seq<int>, k: nat, before: Checkpoint, after: Checkpoint,
                   opts: Options, fetch: int -> Option<Record>)
    requires k < |ids|
    requires Run(start, ids, opts, fetch) == Run(before, ids[k..], opts, fetch)
    requires after == AfterVisit(before, fetch(ids[k]), opts.autoSave)
    ensures Stops(after, opts) ==> Run(start, ids, opts, fetch) == after
    ensures !Stops(after, opts) ==> Run(start, ids, opts, fetch) == Run(after, ids[k + 1..], opts, fetch)
  {
    RunStep(before, ids, k, opts, fetch);
  }

  /** How many ids of `ids` the loop visits. */
  function Visits(st: Checkpoint, ids: seq<int>, opts: Options, fetch: int -> Option<Record>): (n: nat)
    ensures n <= |ids|
    ensures ids != [] ==> n >= 1
    decreases |ids|
  {
    if ids == [] then 0
    else
      var next := AfterVisit(st, fetch(ids[0]), opts.autoSave);
      if Stops(next, opts) then 1 else 1 + Visits(next, ids[1..], opts, fetch)
  }

  /** The records successfully fetched for `ids`, in visiting order: at most
      one per id, and one for every id when every fetch succeeds. */
  function Harvest(ids: seq<int>, fetch: int -> Option<Record>): (r: seq<Record>)
    ensures |r| <= |ids|
    ensures (forall k :: 0 <= k < |ids| ==> fetch(ids[k]).Some?) ==> |r| == |ids|
  {
    if ids == [] then []
    else Fetched(fetch(ids[0])) + Harvest(ids[1..], fetch)
  }

  /** A failed fetch changes nothing, provided the buffer is not a non-empty
      multiple of 50 that auto-save would flush. */
  lemma FailedVisitChangesNothing(st: Checkpoint, autoSave: bool)
    requires !autoSave || st.buffer == [] || |st.buffer| % AutoSaveEvery != 0
    ensures AfterVisit(st, None, autoSave) == st
  {
  }

  /** With auto-save on, the buffer never reaches 50 records between
      iterations. */
  lemma {:induction false} RunBufferBound(st: Checkpoint, ids: seq<int>, opts: Options, fetch: int -> Option<Record>)
    requires opts.autoSave && |st.buffer| < AutoSaveEvery
    ensures |Run(st, ids, opts, fetch).buffer| < AutoSaveEvery
    decreases |ids|
  {
    if ids != [] {
      var next := AfterVisit(st, fetch(ids[0]), opts.autoSave);
      assert |next.buffer| < AutoSaveEvery;
      if !Stops(next, opts) {
        RunBufferBound(next, ids[1..], opts, fetch);
      }
    }
  }

  /** Without sampling, or with auto-save keeping the buffer small, the loop
      visits every id: the sampling break can only fire with auto-save off. */
  lemma {:induction false} RunVisitsAll(st: Checkpoint, ids: seq<int>, opts: Options, fetch: int -> Option<Record>)
    requires !opts.sampling || (opts.autoSave && |st.buffer| < AutoSaveEvery)
    ensures Visits(st, ids, opts, fetch) == |ids|
    decreases |ids|
  {
    if ids != [] {
      var next := AfterVisit(st, fetch(ids[0]), opts.autoSave);
      assert !Stops(next, opts);
      RunVisitsAll(next, ids[1..], opts, fetch);
    }
  }

  /** The loop ends early only through the sampling break, with more than 100
      records buffered. */
  lemma {:induction false} RunStopsEarly(st: Checkpoint, ids: seq<int>, opts: Options, fetch: int -> Option<Record>)
    requires Visits(st, ids, opts, fetch) < |ids|
    ensures opts.sampling && |Run(st, ids, opts, fetch).buffer| > SampleLimit
    decreases |ids|
  {
    var next := AfterVisit(st, fetch(ids[0]), opts.autoSave);
    if !Stops(next, opts) {
      RunStopsEarly(next, ids[1..], opts, fetch);
    }
  }

  /** Sampling caps the buffer at 101 records. */
  lemma {:induction false} SamplingCap(st: Checkpoint, ids: seq<int>, opts: Options, fetch: int -> Option<Record>)
    requires opts.sampling && |st.buffer| <= SampleLimit
    ensures |Run(st, ids, opts, fetch).buffer| <= SampleLimit + 1
    decreases |ids|
  {
    if ids != [] {
      var next := AfterVisit(st, fetch(ids[0]), opts.autoSave);
      if !Stops(next, opts) {
        SamplingCap(next, ids[1..], opts, fetch);
      }
    }
  }

  lemma HarvestConcat(ids: seq<int>, n: nat, fetch: int -> Option<Record>)
    requires 1 <= n <= |ids|
    ensures Harvest(ids[..n], fetch) == Fetched(fetch(ids[0])) + Harvest(ids[1..][..n - 1], fetch)
  {
    assert ids[..n][0] == ids[0];
    assert ids[..n][1..] == ids[1..][..n - 1];
  }

  /** One iteration followed by a save of `rest` stores what a save of the
      old buffer, this iteration's record and `rest` would. */
  lemma VisitThenSave(st: Checkpoint, got: Option<Record>, autoSave: bool, rest: seq<Record>)
    requires st.store.Some? || UniqueIds(st.buffer + Fetched(got) + rest)
    ensures var next := AfterVisit(st, got, autoSave);
            (next.store.Some? || UniqueIds(next.buffer + rest)) &&
            Flush(next.store, next.buffer + rest) == Flush(st.store, st.buffer + Fetched(got) + rest)
  {
    var b := st.buffer + Fetched(got);
    if autoSave && |b| % AutoSaveEvery == 0 {
      assert [] + rest == rest;
      FlushTwice(st.store, b, rest);
    }
  }

  /** The loop followed by a save stores what a single save of every fetched
      record would: the auto-save checkpoints lose and duplicate nothing. */
  lemma {:induction false} RunThenSave(st: Checkpoint, ids: seq<int>, opts: Options, fetch: int -> Option<Record>)
    requires var got := Harvest(ids[..Visits(st, ids, opts, fetch)], fetch);
             st.store.Some? || UniqueIds(st.buffer + got)
    ensures var got := Harvest(ids[..Visits(st, ids, opts, fetch)], fetch);
            var last := Run(st, ids, opts, fetch);
            Flush(last.store, last.buffer) == Flush(st.store, st.buffer + got)
    decreases |ids|
  {
    if ids == [] {
      assert st.buffer + [] == st.buffer;
    } else {
      var next := AfterVisit(st, fetch(ids[0]), opts.autoSave);
      if Stops(next, opts) {
        StopThenSave(st, ids, opts, fetch);
      } else {
        ContinueThenSave(st, ids, opts, fetch);
        RunThenSave(next, ids[1..], opts, fetch);
      }
    }
  }

  /** The case of `RunThenSave` where the loop goes on after the first
      iteration: the rest of the loop starts from a state that can still be
      saved as one, and saving it as one equals saving `st` as one. */
  lemma ContinueThenSave(st: Checkpoint, ids: seq<int>, opts: Options, fetch: int -> Option<Record>)
    requires ids != []
    requires !Stops(AfterVisit(st, fetch(ids[0]), opts.autoSave), opts)
    requires st.store.Some? || UniqueIds(st.buffer + Harvest(ids[..Visits(st, ids, opts, fetch)], fetch))
    ensures var next := AfterVisit(st, fetch(ids[0]), opts.autoSave);
            var rest := Harvest(ids[1..][..Visits(next, ids[1..], opts, fetch)], fetch);
            (next.store.Some? || UniqueIds(next.buffer + rest)) &&
            Run(st, ids, opts, fetch) == Run(next, ids[1..], opts, fetch) &&
            Flush(next.store, next.buffer + rest) ==
              Flush(st.store, st.buffer + Harvest(ids[..Visits(st, ids, opts, fetch)], fetch))
  {
    var next := AfterVisit(st, fetch(ids[0]), opts.autoSave);
    var m := Visits(next, ids[1..], opts, fetch);
    assert Visits(st, ids, opts, fetch) == 1 + m;
    VisitThenSaveFirst(st, ids, m, opts.autoSave, fetch);
  }

  /** `VisitThenSave` for the first of the `1 + m` visited ids of `ids`. */
  lemma VisitThenSaveFirst(st: Checkpoint, ids: seq<int>, m: nat, autoSave: bool, fetch: int -> Option<Record>)
    requires m < |ids|
    requires st.store.Some? || UniqueIds(st.buffer + Harvest(ids[..1 + m], fetch))
    ensures var next := AfterVisit(st, fetch(ids[0]), autoSave);
            var rest := Harvest(ids[1..][..m], fetch);
            (next.store.Some? || UniqueIds(next.buffer + rest)) &&
            Flush(next.store, next.buffer + rest) == Flush(st.store, st.buffer + Harvest(ids[..1 + m], fetch))
  {
    var h0 := Fetched(fetch(ids[0]));
    HarvestConcat(ids, 1 + m, fetch);
    var rest := Harvest(ids[1..][..m], fetch);
    assert st.buffer + Harvest(ids[..1 + m], fetch) == st.buffer + h0 + rest;
    VisitThenSave(st, fetch(ids[0]), autoSave, rest);
  }

  /** The case of `RunThenSave` where the first iteration already stops. */
  lemma StopThenSave(st: Checkpoint, ids: seq<int>, opts: Options, fetch: int -> Option<Record>)
    requires ids != []
    requires Stops(AfterVisit(st, fetch(ids[0]), opts.autoSave), opts)
    requires st.store.Some? || UniqueIds(st.buffer + Harvest(ids[..Visits(st, ids, opts, fetch)], fetch))
    ensures var got := Harvest(ids[..Visits(st, ids, opts, fetch)], fetch);
            var last := Run(st, ids, opts, fetch);
            Flush(last.store, last.buffer) == Flush(st.store, st.buffer + got)
  {
    var h0 := Fetched(fetch(ids[0]));
    var next := AfterVisit(st, fetch(ids[0]), opts.autoSave);
    assert Visits(st, ids, opts, fetch) == 1;
    HarvestConcat(ids, 1, fetch);
    assert ids[1..][..0] == [];
    assert Harvest(ids[..1], fetch) == h0 + [];
    assert st.buffer + Harvest(ids[..1], fetch) == st.buffer + h0 + [];
    VisitThenSave(st, fetch(ids[0]), opts.autoSave, []);
    assert next.buffer + [] == next.buffer;
    assert Run(st, ids, opts, fetch) == next;
  }

  /** Every harvested record was fetched for an id of `ids` whose fetch
      succeeded, and each such id yields one record. */
  lemma {:induction false} HarvestIds(ids: seq<int>, fetch: int -> Option<Record>)
    requires Keyed(fetch)
    ensures Ids(Harvest(ids, fetch)) == set i | i in ids && fetch(i).Some?
  {
    if ids != [] {
      var h0 := Fetched(fetch(ids[0]));
      HarvestIds(ids[1..], fetch);
      IdsConcat(h0, Harvest(ids[1..], fetch));
      assert ids == [ids[0]] + ids[1..];
      if h0 != [] {
        assert h0 == [fetch(ids[0]).value];
        assert fetch(ids[0]).value.articleId == ids[0];
        assert h0[0] in h0;
        assert Ids(h0) == {ids[0]};
      }
    }
  }

  /** Distinct ids give duplicate-free records. */
  lemma {:induction false} HarvestUnique(ids: seq<int>, fetch: int -> Option<Record>)
    requires Keyed(fetch)
    requires forall i, j :: 0 <= i < j < |ids| ==> ids[i] != ids[j]
    ensures UniqueIds(Harvest(ids, fetch))
  {
    if ids != [] {
      var h0 := Fetched(fetch(ids[0]));
      var rest := Harvest(ids[1..], fetch);
      HarvestUnique(ids[1..], fetch);
      HarvestIds(ids[1..], fetch);
      forall i, j | 0 <= i < |h0| && 0 <= j < |rest| ensures h0[i].articleId != rest[j].articleId {
        IdsAt(rest, j);
        assert ids[0] !in ids[1..] by {
          forall k | 0 <= k < |ids[1..]| ensures ids[1..][k] != ids[0] {
            assert ids[1..][k] == ids[k + 1];
          }
        }
      }
      UniqueIdsConcat(h0, rest);
    }
  }

  /** A crawl over distinct ids that starts with an empty buffer ends, after
      its final save, with the store a single save of the harvest would give;
      the harvest holds one record per visited id whose fetch succeeded. */
  lemma CrawlFromEmptyBuffer(store: Option<seq<Record>>, ids: seq<int>, opts: Options, fetch: int -> Option<Record>)
    requires Keyed(fetch)
    requires forall i, j :: 0 <= i < j < |ids| ==> ids[i] != ids[j]
    ensures var st := Checkpoint([], store);
            var got := Harvest(ids[..Visits(st, ids, opts, fetch)], fetch);
            var last := Run(st, ids, opts, fetch);
            Flush(last.store, last.buffer) == Flush(store, got) &&
            UniqueIds(got) &&
            Ids(got) == set i | i in ids[..Visits(st, ids, opts, fetch)] && fetch(i).Some?
  {
    var st := Checkpoint([], store);
    var visited := ids[..Visits(st, ids, opts, fetch)];
    var got := Harvest(visited, fetch);
    HarvestUnique(visited, fetch);
    HarvestIds(visited, fetch);
    assert st.buffer + got == got;
    RunThenSave(st, ids, opts, fetch);
  }
}

=== FILE: store.dfy ===
// The persisted store and what one flush of the buffer does to it
// (`InvenCrawler.save_data`): write the buffer verbatim when there is no store
// yet, otherwise concatenate and drop later duplicates of `article_id`.

module Store {
  import opened Records

  /** `drop_duplicates("article_id")` with pandas' default `keep='first'`:
      a record is kept when no earlier record carries its article id. */
  function DropDuplicates(s: seq<Record>): (r: seq<Record>)
    ensures UniqueIds(r)
    ensures Ids(r) == Ids(s)
    ensures |r| <= |s|
  {
    if s == [] then []
    else
      var init, last := s[..|s| - 1], s[|s| - 1];
      assert s == init + [last];
      IdsConcat(init, [last]);
      var kept := DropDuplicates(init);
      if last.articleId in Ids(kept) then kept
      else
        IdsConcat(kept, [last]);
        assert forall i :: 0 <= i < |kept| ==> kept[i].articleId != last.articleId by {
          forall i | 0 <= i < |kept| ensures kept[i].articleId != last.articleId {
            IdsAt(kept, i);
          }
        }
        kept + [last]
  }

  /** One more record at the end is kept exactly when its id is new. */
  lemma DropDuplicatesSnoc(s: seq<Record>, x: Record)
    ensures DropDuplicates(s + [x]) ==
            if x.articleId in Ids(s) then DropDuplicates(s) else DropDuplicates(s) + [x]
  {
    assert (s + [x])[..|s + [x]| - 1] == s;
  }

  /** `x` is the first record of `s` that carries its article id. */
  predicate KeptFirst(s: seq<Record>, x: Record)
  {
    x.articleId in Ids(s) && x == s[FirstIndex(s, x.articleId)]
  }

  /** The id of `x` first occurs in `s` before the id of `y` does. */
  predicate FirstBefore(s: seq<Record>, x: Record, y: Record)
  {
    x.articleId in Ids(s) && y.articleId in Ids(s) &&
    FirstIndex(s, x.articleId) < FirstIndex(s, y.articleId)
  }

  /** The result is exactly the first occurrence of each id, in the order in
      which those first occurrences appear. */
  lemma {:induction false} DropDuplicatesKeepsFirst(s: seq<Record>)
    ensures forall p :: 0 <= p < |DropDuplicates(s)| ==>
              KeptFirst(s, DropDuplicates(s)[p])
    ensures forall p, q :: 0 <= p < q < |DropDuplicates(s)| ==>
              FirstBefore(s, DropDuplicates(s)[p], DropDuplicates(s)[q])
  {
    var r := DropDuplicates(s);
    if s != [] {
      var init, last := s[..|s| - 1], s[|s| - 1];
      assert s == init + [last];
      IdsConcat(init, [last]);
      var kept := DropDuplicates(init);
      DropDuplicatesKeepsFirst(init);
      forall p | 0 <= p < |kept|
        ensures kept[p].articleId in Ids(s)
        ensures FirstIndex(s, kept[p].articleId) == FirstIndex(init, kept[p].articleId)
        ensures kept[p] == s[FirstIndex(s, kept[p].articleId)]
      {
        assert kept[p].articleId in Ids(init);
        FirstIndexAppend(init, last, kept[p].articleId);
        assert kept[p] == init[FirstIndex(init, kept[p].articleId)];
        assert s[FirstIndex(init, kept[p].articleId)] == init[FirstIndex(init, kept[p].articleId)];
      }
      if last.articleId !in Ids(kept) {
        assert r == kept + [last];
        assert last.articleId in Ids(s) by { IdsAt(s, |s| - 1); }
        FirstIndexAppend(init, last, last.articleId);
        forall p | 0 <= p < |kept| ensures FirstIndex(s, r[p].articleId) < |init| {
        }
      }
    }
  }

  /** A sequence whose ids are already unique is left as it is. */
  lemma {:induction false} DropDuplicatesOfUnique(s: seq<Record>)
    requires UniqueIds(s)
    ensures DropDuplicates(s) == s
  {
    if s != [] {
      var init, last := s[..|s| - 1], s[|s| - 1];
      assert s == init + [last];
      DropDuplicatesOfUnique(init);
    }
  }

  /** Deduplicating a prefix first does not change the overall result: what a
      first flush kept is what a later flush keeps. */
  lemma {:induction false} DropDuplicatesNested(s: seq<Record>, t: seq<Record>)
    ensures DropDuplicates(DropDuplicates(s) + t) == DropDuplicates(s + t)
  {
    if t == [] {
      assert DropDuplicates(s) + t == DropDuplicates(s);
      assert s + t == s;
      DropDuplicatesOfUnique(DropDuplicates(s));
    } else {
      var init, last := t[..|t| - 1], t[|t| - 1];
      assert t == init + [last];
      DropDuplicatesNested(s, init);
      assert DropDuplicates(s) + t == (DropDuplicates(s) + init) + [last];
      assert s + t == (s + init) + [last];
      DropDuplicatesSnoc(DropDuplicates(s) + init, last);
      DropDuplicatesSnoc(s + init, last);
    }
  }

  /** Records whose ids are all known already add nothing. */
  lemma {:induction false} DropDuplicatesAbsorbs(s: seq<Record>, t: seq<Record>)
    requires Ids(t) <= Ids(s)
    ensures DropDuplicates(s + t) == DropDuplicates(s)
  {
    if t == [] {
      assert s + t == s;
    } else {
      var init, last := t[..|t| - 1], t[|t| - 1];
      assert t == init + [last];
      IdsConcat(init, [last]);
      DropDuplicatesAbsorbs(s, init);
      assert s + t == (s + init) + [last];
      DropDuplicatesSnoc(s + init, last);
      IdsConcat(s, init);
      assert last.articleId in Ids(s) by { IdsAt(t, |t| - 1); }
    }
  }

  /** The deduplicated old part is a prefix of the deduplicated whole. */
  lemma {:induction false} DropDuplicatesPrefix(s: seq<Record>, t: seq<Record>)
    ensures |DropDuplicates(s)| <= |DropDuplicates(s + t)|
    ensures DropDuplicates(s + t)[..|DropDuplicates(s)|] == DropDuplicates(s)
  {
    if t == [] {
      assert s + t == s;
    } else {
      var init, last := t[..|t| - 1], t[|t| - 1];
      assert t == init + [last];
      DropDuplicatesPrefix(s, init);
      assert s + t == (s + init) + [last];
      DropDuplicatesSnoc(s + init, last);
    }
  }

  /** The store after `save_data` with buffer `buffer`; `None` means the file
      does not exist. An empty buffer leaves it alone; otherwise the file
      exists afterwards, holds at most the stored and buffered records, and no
      id twice once a file existed. */
  function Flush(store: Option<seq<Record>>, buffer: seq<Record>): (r: Option<seq<Record>>)
    ensures buffer == [] ==> r == store
    ensures buffer != [] ==> r.Some? && |r.value| <= |buffer| + (if store.Some? then |store.value| else 0)
    ensures buffer != [] && store.Some? ==> UniqueIds(r.value)
  {
    if buffer == [] then store
    else
      match store
      case None => Some(buffer)
      case Some(s) => Some(DropDuplicates(s + buffer))
  }

  /** Merging onto an existing store: afterwards no two records share an id,
      every id of the store and of the buffer is present and nothing else,
      a stored record wins over a buffered one with the same id, and a
      duplicate-free store keeps its records in place at the front. */
  lemma MergeOntoStore(s: seq<Record>, buffer: seq<Record>)
    requires buffer != []
    ensures Flush(Some(s), buffer).Some?
    ensures var m := Flush(Some(s), buffer).value;
            UniqueIds(m) && Ids(m) == Ids(s) + Ids(buffer)
    ensures var m := Flush(Some(s), buffer).value;
            forall p :: 0 <= p < |m| && m[p].articleId in Ids(s) ==>
              m[p] == s[FirstIndex(s, m[p].articleId)]
    ensures UniqueIds(s) ==>
              |s| <= |Flush(Some(s), buffer).value| && Flush(Some(s), buffer).value[..|s|] == s
  {
    var m := DropDuplicates(s + buffer);
    IdsConcat(s, buffer);
    DropDuplicatesKeepsFirst(s + buffer);
    forall p | 0 <= p < |m| && m[p].articleId in Ids(s)
      ensures m[p] == s[FirstIndex(s, m[p].articleId)]
    {
      var id := m[p].articleId;
      var i := FirstIndex(s, id);
      assert id in Ids(s + buffer);
      var j := FirstIndex(s + buffer, id);
      assert m[p] == (s + buffer)[j];
      assert (s + buffer)[i] == s[i];
      assert j == i;
    }
    if UniqueIds(s) {
      DropDuplicatesPrefix(s, buffer);
      DropDuplicatesOfUnique(s);
    }
  }

  /** With no store yet, the buffer becomes the store verbatim, duplicates and
      all. */
  lemma FlushCreatesStore(buffer: seq<Record>)
    requires buffer != []
    ensures Flush(None, buffer) == Some(buffer)
  {
  }

  /** Flushing in two chunks is the same as flushing once: checkpointed saving
      loses and duplicates nothing. The fresh-store case needs the records to
      be duplicate-free, since the first write is not deduplicated. */
  lemma FlushTwice(store: Option<seq<Record>>, b1: seq<Record>, b2: seq<Record>)
    requires store.Some? || UniqueIds(b1 + b2)
    ensures Flush(Flush(store, b1), b2) == Flush(store, b1 + b2)
  {
    if b1 == [] {
      assert b1 + b2 == b2;
    } else if b2 == [] {
      assert b1 + b2 == b1;
    } else {
      match store
      case None =>
        DropDuplicatesOfUnique(b1 + b2);
      case Some(s) =>
        DropDuplicatesNested(s + b1, b2);
        assert s + b1 + b2 == s + (b1 + b2);
    }
  }

  /** Saving the same buffer again leaves the store as the first save made it. */
  lemma FlushIdempotent(store: Option<seq<Record>>, buffer: seq<Record>)
    requires store.Some? || UniqueIds(buffer)
    ensures Flush(Flush(store, buffer), buffer) == Flush(store, buffer)
  {
    if buffer != [] {
      var s := Flush(store, buffer).value;
      assert Ids(buffer) <= Ids(s) by {
        if store.Some? {
          IdsConcat(store.value, buffer);
        }
      }
      DropDuplicatesAbsorbs(s, buffer);
      DropDuplicatesOfUnique(s);
    }
  }

  /** Re-crawling articles that are already stored leaves a duplicate-free
      store exactly as it was. */
  lemma RecrawlKeepsStore(s: seq<Record>, buffer: seq<Record>)
    requires UniqueIds(s) && Ids(buffer) <= Ids(s)
    ensures Flush(Some(s), buffer) == Some(s)
  {
    if buffer != [] {
      DropDuplicatesAbsorbs(s, buffer);
      DropDuplicatesOfUnique(s);
    }
  }
}

=== FILE: text.dfy ===
// Decimal rendering (`str(i)` / f"{i}"), `"|".join`, `str.split`, and the
// comment request's `titles` field built in `crawling_article_comment`.

module Text {
  import PyRange

  predicate IsDigit(c: char) { '0' <= c <= '9' }

  predicate AllDigits(s: string) { forall i :: 0 <= i < |s| ==> IsDigit(s[i]) }

  function DigitChar(d: nat): (c: char)
    requires d < 10
    ensures IsDigit(c)
  {
    (48 + d) as char
  }

  function DigitValue(c: char): (d: nat)
    requires IsDigit(c)
    ensures d < 10 && DigitChar(d) == c
  {
    (c as int - 48) as nat
  }

  /** `str(n)` for a non-negative integer: its decimal digits, no leading zero. */
  function NatToString(n: nat): (s: string)
    ensures s != [] && AllDigits(s)
    ensures s[0] == '0' ==> n == 0
    ensures n == 0 ==> s == "0"
  {
    if n < 10 then [DigitChar(n)]
    else NatToString(n / 10) + [DigitChar(n % 10)]
  }

  /** The value of a string of decimal digits (`int(s)`); empty reads as 0. */
  function ParseNat(s: string): nat
    requires AllDigits(s)
  {
    if s == [] then 0
    else ParseNat(s[..|s| - 1]) * 10 + DigitValue(s[|s| - 1])
  }

  /** Reading back the decimal rendering gives the number. */
  lemma {:induction false} ParseNatToString(n: nat)
    ensures ParseNat(NatToString(n)) == n
  {
    var s := NatToString(n);
    if n >= 10 {
      ParseNatToString(n / 10);
      assert s[..|s| - 1] == NatToString(n / 10);
      assert DigitValue(s[|s| - 1]) == n % 10;
    } else {
      assert DigitValue(s[0]) == n;
    }
  }

  /** Text of the shape `str` gives an integer: digits, maybe after a minus. */
  predicate IntText(s: string)
  {
    if s != [] && s[0] == '-' then AllDigits(s[1..]) else AllDigits(s)
  }

  /** `int(s)` for such text. */
  function ParseInt(s: string): int
    requires IntText(s)
  {
    if s != [] && s[0] == '-' then -(ParseNat(s[1..]) as int) else ParseNat(s)
  }

  /** `str(i)` for any integer: a minus sign before the magnitude's digits. */
  function IntToString(i: int): (s: string)
    ensures s != [] && IntText(s) && ParseInt(s) == i
    ensures i >= 0 <==> AllDigits(s)
    ensures s[0] == '0' ==> i == 0
    ensures i == 0 ==> s == "0"
    ensures i < 0 ==> |s| >= 2 && s[0] == '-' && s[1] != '0'
  {
    if i < 0 then
      var digits := NatToString(-i);
      ParseNatToString(-i);
      assert ("-" + digits)[1..] == digits;
      assert !IsDigit(("-" + digits)[0]);
      "-" + digits
    else
      ParseNatToString(i);
      NatToString(i)
  }

  /** `sep.join(parts)`. */
  function Join(parts: seq<string>, sep: char): string
  {
    if parts == [] then ""
    else if |parts| == 1 then parts[0]
    else parts[0] + [sep] + Join(parts[1..], sep)
  }

  /** `s.split(sep)`: the pieces between occurrences of `sep`; always at least
      one piece. */
  function Split(s: string, sep: char): (parts: seq<string>)
    ensures |parts| >= 1
  {
    if s == [] then [""]
    else
      var rest := Split(s[1..], sep);
      if s[0] == sep then [""] + rest
      else [[s[0]] + rest[0]] + rest[1..]
  }

  lemma {:induction false} SplitWithout(p: string, sep: char)
    requires sep !in p
    ensures Split(p, sep) == [p]
  {
    if p != [] {
      SplitWithout(p[1..], sep);
      assert [p[0]] + p[1..] == p;
    }
  }

  lemma {:induction false} SplitFirst(p: string, sep: char, t: string)
    requires sep !in p
    ensures Split(p + [sep] + t, sep) == [p] + Split(t, sep)
  {
    if p == [] {
      assert p + [sep] + t == [sep] + t;
      assert ([sep] + t)[1..] == t;
    } else {
      SplitFirst(p[1..], sep, t);
      var s := p + [sep] + t;
      assert s[0] == p[0] && s[1..] == p[1..] + [sep] + t;
      assert [p[0]] + p[1..] == p;
    }
  }

  /** Splitting a join gives the parts back when no part holds the separator. */
  lemma {:induction false} SplitJoin(parts: seq<string>, sep: char)
    requires parts != []
    requires forall i :: 0 <= i < |parts| ==> sep !in parts[i]
    ensures Split(Join(parts, sep), sep) == parts
  {
    if |parts| == 1 {
      SplitWithout(parts[0], sep);
    } else {
      SplitJoin(parts[1..], sep);
      SplitFirst(parts[0], sep, Join(parts[1..], sep));
      assert [parts[0]] + parts[1..] == parts;
    }
  }

  /** `[f"{i}" for i in xs]`. */
  function Decimals(xs: seq<int>): (r: seq<string>)
    ensures |r| == |xs|
    ensures forall k :: 0 <= k < |xs| ==> r[k] == IntToString(xs[k])
  {
    if xs == [] then [] else [IntToString(xs[0])] + Decimals(xs[1..])
  }

  /** The comment blocks requested again: `range(100, lastblock + 1, 100)`. */
  function Blocks(lastblock: int): seq<int>
  {
    PyRange.Range(100, lastblock + 1, 100)
  }

  /** The `titles` form field: the blocks joined by `|`. It holds only digits
      and bars, and starts with a digit when it is not empty. */
  function Titles(lastblock: int): (t: string)
    ensures forall k :: 0 <= k < |t| ==> IsDigit(t[k]) || t[k] == '|'
    ensures t != [] ==> IsDigit(t[0])
  {
    var parts := Decimals(Blocks(lastblock));
    BlockDecimals(lastblock);
    JoinDigits(parts, '|');
    Join(parts, '|')
  }

  /** Every block renders as a non-empty string of digits. */
  lemma BlockDecimals(lastblock: int)
    ensures forall i :: 0 <= i < |Decimals(Blocks(lastblock))| ==>
              Decimals(Blocks(lastblock))[i] != [] && AllDigits(Decimals(Blocks(lastblock))[i])
  {
    var b := Blocks(lastblock);
    forall i | 0 <= i < |b| ensures IntToString(b[i]) != [] && AllDigits(IntToString(b[i])) {
      assert b[i] >= 100;
    }
  }

  /** Joining non-empty digit strings gives digits and separators only, with a
      digit first. */
  lemma {:induction false} JoinDigits(parts: seq<string>, sep: char)
    requires forall i :: 0 <= i < |parts| ==> parts[i] != [] && AllDigits(parts[i])
    ensures forall k :: 0 <= k < |Join(parts, sep)| ==> IsDigit(Join(parts, sep)[k]) || Join(parts, sep)[k] == sep
    ensures Join(parts, sep) != [] ==> IsDigit(Join(parts, sep)[0])
  {
    if |parts| > 1 {
      JoinDigits(parts[1..], sep);
      var j := Join(parts, sep);
      var tail := Join(parts[1..], sep);
      assert j == parts[0] + [sep] + tail;
      forall k | 0 <= k < |j| ensures IsDigit(j[k]) || j[k] == sep {
        if k < |parts[0]| {
          assert j[k] == parts[0][k];
        } else if k == |parts[0]| {
          assert j[k] == sep;
        } else {
          assert j[k] == tail[k - |parts[0]| - 1];
        }
      }
      assert j[0] == parts[0][0];
    }
  }

  /** The blocks are 100, 200, ... up to the largest multiple of 100 that is
      at most `lastblock`: `lastblock / 100` of them, none below 100. */
  lemma BlocksAreHundreds(lastblock: int)
    ensures var b := Blocks(lastblock);
            |b| == (if lastblock < 100 then 0 else lastblock / 100) &&
            forall k :: 0 <= k < |b| ==> b[k] == 100 * (k + 1) && b[k] <= lastblock
  {
    var b := Blocks(lastblock);
    PyRange.RangeValues(100, lastblock + 1, 100);
    if b != [] {
      assert b[|b| - 1] == 100 + (|b| - 1) * 100;
    }
  }

  /** `titles` is empty exactly when `lastblock` is below 100. */
  lemma TitlesEmpty(lastblock: int)
    ensures Titles(lastblock) == "" <==> lastblock < 100
  {
    BlocksAreHundreds(lastblock);
    var parts := Decimals(Blocks(lastblock));
    if lastblock >= 100 {
      assert parts[0] == IntToString(100) != "";
      if |parts| > 1 {
        assert |Titles(lastblock)| >= |parts[0]|;
      }
    }
  }

  /** Splitting `titles` at `|` gives the canonical decimal texts of 100,
      200, ..., 100 * (lastblock / 100), which read back as those numbers. */
  lemma TitlesRoundTrip(lastblock: int)
    requires lastblock >= 100
    ensures var pieces := Split(Titles(lastblock), '|');
            |pieces| == lastblock / 100 &&
            forall k :: 0 <= k < |pieces| ==>
              AllDigits(pieces[k]) && ParseNat(pieces[k]) == 100 * (k + 1) &&
              pieces[k] == IntToString(100 * (k + 1))
  {
    var b := Blocks(lastblock);
    BlocksAreHundreds(lastblock);
    var parts := Decimals(b);
    forall i | 0 <= i < |parts| ensures '|' !in parts[i] {
      assert AllDigits(parts[i]);
    }
    SplitJoin(parts, '|');
  }
}
